=== FILE: README.md ===
# Path-addressed text pad: document session model

A Dafny model of the document lifecycle of a small "dontpad"-style web pad. Any
URL path names a note. The note loads when the page opens, the user edits it
in a textarea, and it is saved automatically one second after the last
keystroke. All of this logic sits in one React component, `src/App.tsx`.

The model has these parts:

- `Text`: ECMAScript whitespace and `trim`. `IsWs` lists the WhiteSpace and
  LineTerminator code points, with the Zs space separators written out.
- `Paths`: how a location path resolves to a document key (`ResolveKey`), and
  where a "go to path" submission navigates (`NavigationTarget`).
- `DocStore`: the backend as a map from keys to `Doc(content, savedAt)`. Every
  read and every write takes a success flag `ok`, so either outcome can happen.
- `Session`: the component as an immutable `State` plus a `Step` function over
  events. The events are `Loaded(ok)` (the initial read settles), `Edit(text)`,
  `Elapse(d)` (logical time passes), `Settle(i, ok)` (the `i`-th write in
  flight settles) and `Navigate(input)`.
  - The autosave `setTimeout` is a `Timer` that records its deadline and the
    `content` and `path` its closure captured.
  - An effect re-run becomes `SetContent`. It cancels the old timer, then arms
    a new one unless the content is empty.
  - `Inv` is the invariant of reachable states.
- `SessionProps`, `Debounce`, `Scenarios`: lemmas about single steps, bursts
  of typing and concrete traces.

The model keeps the source's quirks as they are:

- Empty content never arms a save, so clearing a note is never saved.
- Loading a non-empty note saves it again one quiet period later.
- `isSaving` stands for both "a save is pending" and "a write is in flight".
  Two consequences follow:
  - Clearing the text while a save is pending leaves the flag up however
    long the page waits; only the settling of an earlier write lowers it
    (`StuckSavingIndicator`).
  - A write that settles lowers the flag even while a newer timer is armed
    (`SavingFlagDropsWhilePending`).
- If the backend may settle writes out of order, an older write can
  overwrite a newer one (`StaleWriteCanWin`).
- `/` and `/index` name the same note (`RootIsIndex`).

Further facts about `src/App.tsx` that the model keeps:

- The save status is two booleans, `isSaving` and `isLoading`, plus the
  optional `lastSaved`. A failed write shows only in that `lastSaved` does
  not move.
- The store records the time the timer fired (line 46). The page's `lastSaved`
  records the time the write settled (line 49).
- Key resolution drops the first character of the path whatever it is
  (`slice(1)`, line 14).
- The autosave effect never arms a timer before the load settles, because the
  content is still empty then.

## Model

| member | source | states |
|---|---|---|
| Text.WsProductions | src/App.tsx:67 | a character is stripped by `trim` exactly when it belongs to ECMAScript's WhiteSpace (TAB, VT, FF, ZWNBSP or a Zs space separator) or LineTerminator (LF, CR, LS, PS) |
| Text.Trim | src/App.tsx:67 | the trimmed input is no longer than the input and has no whitespace at either end |
| Text.TrimIsInfix | src/App.tsx:67 | `trim` removes an all-whitespace prefix and an all-whitespace suffix and keeps the middle |
| Text.TrimUnique | src/App.tsx:67 | any cut of the input into whitespace, a middle with no whitespace at either end, and whitespace gives the trim as that middle, so the trim is unique |
| Text.TrimEmptyIff | src/App.tsx:67-68 | the trimmed input is empty exactly when the input is all whitespace |
| Text.TrimIdempotent | src/App.tsx:67 | trimming twice gives the same result as trimming once |
| Paths.KeyPath | src/App.tsx:69 | the location path of a key is `/` followed by the key |
| Paths.ResolveKey | src/App.tsx:14 | the key is never empty; a path of length 0 or 1 gives `index`; a longer path is its first character followed by the key |
| Paths.ResolveKeyPath | src/App.tsx:14 | every non-empty key is recovered from its location path `/key` |
| Paths.KeyPathOfResolved | src/App.tsx:14 | a path that starts with a slash is the location path of its key; the bare root maps to `/index` |
| Paths.RootIsIndex | src/App.tsx:14 | `/`, the empty path and `/index` all resolve to the default key |
| Paths.ResolveKeyInjective | src/App.tsx:14 | two paths of length two or more with the same first character and the same key are equal |
| Paths.NavigationTarget | src/App.tsx:64-71 | navigation is rejected exactly when the input is all whitespace; otherwise the target starts with `/`, has length at least 2, and has no whitespace at either end of its tail |
| Paths.NavigationLandsOnTrimmedKey | src/App.tsx:67-69 | the page that navigation opens resolves to the trimmed input as its key |
| Paths.NavigationTargetStable | src/App.tsx:67-69 | submitting the key of a target again navigates to the same target |
| DocStore.Read | src/App.tsx:20-23 | a read fails exactly when the call fails; it finds the document exactly when the call succeeds and the key is present, and returns the stored document |
| DocStore.Write | src/App.tsx:43-48 | a successful write replaces the document under its key and leaves every other key as it was; a failed write changes nothing |
| DocStore.ReadAfterWrite | src/App.tsx:43-48 | reading a key after a successful write to it returns the written document |
| DocStore.ReadOtherAfterWrite | src/App.tsx:43-48 | a write does not change what a read of any other key returns |
| DocStore.LastWriteWins | src/App.tsx:43-48 | of two successful writes to the same key, the later one wins |
| Session.Mount | src/App.tsx:7-15 | a fresh page is loading, has empty content, no timer and no writes in flight, and its key is the resolved location path |
| Session.SetContent | src/App.tsx:37-41 | an unchanged value re-runs nothing; a changed value cancels any pending timer and arms a new one, with `isSaving` raised, exactly when the value is non-empty; nothing else changes |
| Session.OnLoaded | src/App.tsx:18-31 | loading always ends, and neither the store nor the key changes |
| Session.OnEdit | src/App.tsx:60-62 | an edit never touches the store, the writes in flight or the loading flag |
| Session.OnElapse | src/App.tsx:41-55 | the clock advances; at most one write is added, behind those already in flight, exactly when an armed deadline falls within the interval |
| Session.OnSettle | src/App.tsx:43-54 | settling an existing request lowers `isSaving` and removes that request; the timer and the content stay; an unknown request changes nothing |
| Session.OnNavigate | src/App.tsx:64-71 | a rejected input changes nothing; the store and the clock always stay |
| Session.Step | src/App.tsx:13-71 | time never goes back; keys are never removed from the store; only a settled write changes the store; only navigation changes the key |
| Session.Run | src/App.tsx:13-71 | over any trace, time never goes back and keys are never removed from the store |
| SessionProps.MountInv | src/App.tsx:7-15 | a freshly mounted page satisfies the invariant |
| SessionProps.StepInv | src/App.tsx:18-71 | every event keeps the invariant: an armed timer holds the current content and key, that content is non-empty, and its deadline lies after now and at most one quiet period ahead; every write in flight targets the current key |
| SessionProps.RunInv | src/App.tsx:18-71 | every state a trace reaches satisfies the invariant |
| SessionProps.LoadOutcome | src/App.tsx:18-31 | a found note supplies the content and `lastSaved`; an absent note or a failed read leaves the content empty and no save time; loading ends; a timer is armed exactly when the loaded content is non-empty |
| SessionProps.LoadOnce | src/App.tsx:34-35 | once the read has settled, another settlement has no effect |
| SessionProps.LoadResaves | src/App.tsx:24 | loading a non-empty note and waiting one quiet period writes the same content back; only that key's save time changes in the store |
| SessionProps.StepUnedited | src/App.tsx:18-54 | on a loaded page, waits, settlements and repeated load settlements keep every snapshot and request carrying the note's original content and every note's content unchanged |
| SessionProps.LoadKeepsContent | src/App.tsx:18-54 | after the load settles, whatever its outcome, no sequence of waits and settlements, successful or failed, without an edit or navigation changes any note's content or the set of notes |
| SessionProps.EditRearms | src/App.tsx:37-41 | a changed, non-empty edit replaces any pending timer with one a full quiet period ahead that holds the new content, raises `isSaving` and sends nothing |
| SessionProps.EditToEmpty | src/App.tsx:38 | clearing the note cancels the pending timer, arms none, and leaves both flags and the save time as they were |
| SessionProps.EditWhileLoading | src/App.tsx:120-131 | an edit while loading has no effect, because the textarea is not rendered yet |
| SessionProps.FireWritesCurrent | src/App.tsx:41-48 | a firing timer sends the content present at that moment under the current key, stamped with the firing time |
| SessionProps.WaitBeforeDeadline | src/App.tsx:41 | before its deadline the timer only waits |
| SessionProps.QuietWithoutTimer | src/App.tsx:37-41 | with no timer armed, waiting changes only the clock, however long the wait: nothing is sent |
| SessionProps.StuckSavingIndicator | src/App.tsx:38-40 | changing the text and then clearing it before the timer fires, from any content, leaves `isSaving` up and sends nothing, however long the page waits |
| SessionProps.SettleOutcome | src/App.tsx:43-54 | `isSaving` drops on both outcomes; success stores the request's document and sets `lastSaved` to the current time; failure changes neither and arms no retry |
| SessionProps.StepTouchesOnlyPath | src/App.tsx:43-48 | no event changes the document under any key other than the current one |
| SessionProps.RunTouchesOnlyPath | src/App.tsx:43-48 | over a trace without navigation, every other key keeps its document |
| SessionProps.NavigateTearsDown | src/App.tsx:64-71 | an all-whitespace input changes nothing; any other input mounts a fresh page on the trimmed key, with no timer and nothing in flight, so the pending save is dropped |
| Debounce.BurstDefers | src/App.tsx:37-57 | a burst of changed, non-empty edits less than a quiet period apart sends nothing and ends with one timer for the last content, a quiet period after the last edit |
| Debounce.Coalesce | src/App.tsx:37-57 | a burst followed by a quiet period sends exactly one write, with the last content, stamped a quiet period after the last edit |
| Debounce.SentWritesAccumulate | src/App.tsx:41-48 | without settlements or navigation, every request in flight at the start is still in flight at the end, in the same order, at the front |
| Debounce.SentWritesStamped | src/App.tsx:41-48 | from a reachable state, every write sent during a trace without settlements or navigation targets the page's key and is stamped after the trace began and no later than it ended |
| Scenarios.ThreeKeystrokes | src/App.tsx:37-57 | edits `a`, `ab` and `abc` at 0, 200 and 400 ms produce exactly one write, at 1400 ms, with content `abc`, which the store then holds |
| Scenarios.StaleWriteCanWin | src/App.tsx:41-53 | two writes that settle out of order leave the older content in the store while the page shows the newer one |
| Scenarios.SavingFlagDropsWhilePending | src/App.tsx:40-53 | an earlier write that settles after a new edit lowers `isSaving` while a timer is still armed |
| Scenarios.ReloadShowsSaved | src/App.tsx:18-26 | after a successful save, reloading the same path shows the saved content and its stored save time |

## Left out

- Firestore `doc`, `getDoc` and `setDoc` are foreign network calls. `DocStore` replaces them with a map keyed by the whole key string, and each call's outcome is a success flag supplied by the event.
- How a key becomes a Firestore document path (`doc(db, 'notes', path)`, lines 20 and 43) is not modelled. Firestore splits the key on `/` and drops empty segments, so `a` and `a/` name one document. A key such as `a/b` gives an odd segment count, and `doc` then throws, so every load and save on that page fails. DocStore.ReadOtherAfterWrite, SessionProps.StepTouchesOnlyPath and SessionProps.RunTouchesOnlyPath hold for the map's keys, not for Firestore's document paths.
- Other pages and clients writing to the store are not modelled: the store changes only through this page's own writes. The shared pad makes such writes possible, and the next two lines name the lemmas that rely on their absence.
- Scenarios.ReloadShowsSaved: holds only if no other client writes the key between the save and the reload's read (line 21).
- SessionProps.LoadResaves: holds only if no other client writes the key during the quiet period after the load; otherwise the re-save at line 24 overwrites that newer note with the content this page loaded.
- Scenarios.StaleWriteCanWin: assumes the store may settle writes in any order. That is an assumption about the backend, not something `src/App.tsx` does.
- `setTimeout`, `clearTimeout` and `Date` are replaced by a logical clock in milliseconds. A timer fires exactly at its deadline. Timestamps are naturals, not ISO strings. The `updatedAt` field, which is never read, is dropped.
- `window.location` becomes a parameter of `Mount`. A redirect becomes a fresh `Mount` at the target.
- Paths.NavigationLandsOnTrimmedKey: treats the target `'/' + trimmed` (line 69) as the next page's pathname verbatim. The browser parses it as a URL, and that parsing is not modelled: percent-encoding, a query (`a?b` opens `/a`), a fragment (`a#b` opens `/a`), dot segments (`x/../y` opens `/y`), backslashes, and a leading `//` (input `/evil`), which names another host.
- SessionProps.NavigateTearsDown: its claim that the new page's key is the trimmed input has the same limit; it holds for inputs without the URL syntax listed above.
- SessionProps.NavigateTearsDown: a target that differs from the current URL only in its fragment (`#x` on `/`, `a#` on `/a`) does not reload the page in a browser. The session, its content and its pending save carry on under the old key. The model mounts a fresh page instead, so its "the pending save is dropped" holds only for targets that really load another document.
- SessionProps.NavigateTearsDown: a real navigation is not atomic. The old page keeps running until the new document commits, so a timer due in that window may still send its write. The model tears the session down in one step.
- Session.OnNavigate: drops writes still in flight when the page unloads. In a browser, a request that was already sent might still reach the store. It also treats a target that changes only the fragment as a reload, which a browser does not do.
- JavaScript strings are sequences of UTF-16 code units; the model's strings are sequences of Unicode scalar values. They agree on every well-formed string for `trim` (all its whitespace lies in the Basic Multilingual Plane), `===` and `slice(1)` on a pathname starting with one ASCII character. Lone surrogates cannot be represented.
- `console.error` is left out; the model has only the outcome of a failed call.
- JSX rendering, styling, icons and `toLocaleTimeString` (lines 73-145) are presentation. The only part of it the model keeps is that no textarea is rendered while loading.
- React's scheduling is replaced by one explicit step per event. The model does not cover effects run twice in development mode, or re-renders that change no state.
- A stored note without a `content` field, which would read as `undefined`, is not modelled. Every stored `Doc` has content.

=== FILE: debounce.dfy ===
/**
  Debounce coalescing over bursts of typing: every edit restarts the quiet
  period, so a burst of edits spaced less than a quiet period apart sends
  exactly one write, of the last content, one quiet period after the last
  edit.
 */
module Debounce {
  import opened Maybe
  import opened DocStore
  import opened Session
  import opened SessionProps

  /** Total of a list of pauses. */
  function Sum(gaps: seq<nat>): nat {
    if gaps == [] then 0 else gaps[0] + Sum(gaps[1..])
  }

  /** A burst of typing: pause `gaps[i]` milliseconds, then set the text to `texts[i]`. */
  function Typing(texts: seq<string>, gaps: seq<nat>): (events: seq<Event>)
    requires |texts| == |gaps|
    ensures |events| == 2 * |texts|
    ensures forall i :: 0 <= i < |events| ==> events[i].Elapse? || events[i].Edit?
  {
    if texts == [] then []
    else [Elapse(gaps[0]), Edit(texts[0])] + Typing(texts[1..], gaps[1..])
  }

  /**
    A burst that starts from content `current` with any armed timer still
    ahead of the first pause, changes the text at every edit to something
    non-empty, and never pauses a full quiet period between edits.
   */
  ghost predicate Burst(s: State, texts: seq<string>, gaps: seq<nat>) {
    && |texts| == |gaps| > 0
    && (s.timer.Some? ==> s.now + gaps[0] < s.timer.value.deadline)
    && texts[0] != s.content
    && (forall i :: 0 <= i < |texts| ==> texts[i] != "")
    && (forall i :: 0 < i < |texts| ==> texts[i] != texts[i - 1] && gaps[i] < QuietPeriod)
  }

  /**
    One pause that does not reach the armed deadline, then a changed,
    non-empty edit: nothing is sent and a fresh timer replaces the old one.
   */
  lemma PauseThenEdit(s: State, gap: nat, text: string)
    requires Inv(s) && !s.isLoading
    requires s.timer.Some? ==> s.now + gap < s.timer.value.deadline
    requires text != "" && text != s.content
    ensures var r := Run(s, [Elapse(gap), Edit(text)]);
      && r.inflight == s.inflight && r.store == s.store
      && r.content == text && r.isSaving && r.now == s.now + gap
      && r.timer == Some(Timer(r.now + QuietPeriod, text, s.path))
      && !r.isLoading && Inv(r)
  {
    var s0 := Step(s, Elapse(gap));
    RunTwo(s, Elapse(gap), Edit(text));
    StepInv(s, Elapse(gap));
    StepInv(s0, Edit(text));
  }

  /**
    During a burst nothing is sent: the store and the requests in flight are
    untouched, and at the end a single timer is armed for the last content,
    one quiet period after the last edit.
   */
  lemma {:induction false} BurstDefers(s: State, texts: seq<string>, gaps: seq<nat>)
    requires Inv(s) && !s.isLoading && Burst(s, texts, gaps)
    ensures var r := Run(s, Typing(texts, gaps));
      && r.inflight == s.inflight && r.store == s.store
      && r.content == texts[|texts| - 1] && r.isSaving
      && r.now == s.now + Sum(gaps)
      && r.timer == Some(Timer(r.now + QuietPeriod, r.content, s.path))
      && !r.isLoading && Inv(r)
    decreases |texts|
  {
    PauseThenEdit(s, gaps[0], texts[0]);
    var s1 := Run(s, [Elapse(gaps[0]), Edit(texts[0])]);
    assert Typing(texts, gaps) == [Elapse(gaps[0]), Edit(texts[0])] + Typing(texts[1..], gaps[1..]);
    RunAppend(s, [Elapse(gaps[0]), Edit(texts[0])], Typing(texts[1..], gaps[1..]));
    if |texts| > 1 {
      var texts', gaps' := texts[1..], gaps[1..];
      assert Burst(s1, texts', gaps') by {
        assert texts'[0] == texts[1] && gaps'[0] == gaps[1];
        forall i | 0 < i < |texts'| ensures texts'[i] != texts'[i - 1] && gaps'[i] < QuietPeriod {
          assert texts'[i] == texts[i + 1] && texts'[i - 1] == texts[i] && gaps'[i] == gaps[i + 1];
        }
      }
      BurstDefers(s1, texts', gaps');
    } else {
      assert Typing(texts[1..], gaps[1..]) == [];
    }
  }

  /**
    Coalescing: a burst followed by a quiet period sends exactly one write,
    of the last content, under the current key, stamped one quiet period
    after the last edit; none of the intermediate contents is sent.
   */
  lemma Coalesce(s: State, texts: seq<string>, gaps: seq<nat>)
    requires Inv(s) && !s.isLoading && Burst(s, texts, gaps)
    ensures var r := Run(s, Typing(texts, gaps) + [Elapse(QuietPeriod)]);
      && r.inflight == s.inflight + [Request(s.path, Doc(texts[|texts| - 1], s.now + Sum(gaps) + QuietPeriod))]
      && r.timer.None? && r.store == s.store && r.isSaving
  {
    BurstDefers(s, texts, gaps);
    var b := Run(s, Typing(texts, gaps));
    RunAppend(s, Typing(texts, gaps), [Elapse(QuietPeriod)]);
    assert Run(b, [Elapse(QuietPeriod)]) == Step(b, Elapse(QuietPeriod));
    FireWritesCurrent(b, QuietPeriod);
  }

  /** No event of the trace settles a write or leaves the page. */
  ghost predicate KeepsRequests(events: seq<Event>) {
    forall i :: 0 <= i < |events| ==> !events[i].Settle? && !events[i].Navigate?
  }

  /**
    Without settlements or navigation, issued writes stay in flight, in the
    same order and at the front; whatever is sent along the way comes after
    them.
   */
  lemma {:induction false} SentWritesAccumulate(s: State, events: seq<Event>)
    requires KeepsRequests(events)
    ensures |s.inflight| <= |Run(s, events).inflight|
    ensures Run(s, events).inflight[..|s.inflight|] == s.inflight
    decreases |events|
  {
    if events != [] {
      var s1 := Step(s, events[0]);
      assert s1.inflight[..|s.inflight|] == s.inflight;
      assert KeepsRequests(events[1..]) by {
        forall i | 0 <= i < |events[1..]| ensures !events[1..][i].Settle? && !events[1..][i].Navigate? {
          assert events[1..][i] == events[i + 1];
        }
      }
      SentWritesAccumulate(s1, events[1..]);
      var r := Run(s1, events[1..]);
      assert r.inflight[..|s.inflight|] == r.inflight[..|s1.inflight|][..|s.inflight|];
    }
  }

  /**
    From a reachable state, every write sent during a trace without
    settlements or navigation targets the page's key and is stamped after
    the trace began and no later than it ended.
   */
  lemma {:induction false} SentWritesStamped(s: State, events: seq<Event>)
    requires Inv(s) && KeepsRequests(events)
    ensures var r := Run(s, events);
      && |s.inflight| <= |r.inflight|
      && forall j :: |s.inflight| <= j < |r.inflight| ==>
           r.inflight[j].key == s.path && s.now < r.inflight[j].doc.savedAt <= r.now
    decreases |events|
  {
    SentWritesAccumulate(s, events);
    if events != [] {
      var s1 := Step(s, events[0]);
      StepInv(s, events[0]);
      assert KeepsRequests(events[1..]) by {
        forall i | 0 <= i < |events[1..]| ensures !events[1..][i].Settle? && !events[1..][i].Navigate? {
          assert events[1..][i] == events[i + 1];
        }
      }
      SentWritesStamped(s1, events[1..]);
      SentWritesAccumulate(s1, events[1..]);
      RunInv(s1, events[1..]);
      var r := Run(s1, events[1..]);
      assert r == Run(s, events);
      forall j | |s.inflight| <= j < |r.inflight|
        ensures r.inflight[j].key == s.path && s.now < r.inflight[j].doc.savedAt <= r.now
      {
        if j < |s1.inflight| {
          assert r.inflight[j] == r.inflight[..|s1.inflight|][j] == s1.inflight[j];
          assert events[0].Elapse? && s.timer.Some?;
          assert s1.inflight[j] == Request(s.timer.value.key, Doc(s.timer.value.snapshot, s.timer.value.deadline));
        }
      }
    }
  }
}

=== FILE: option.dfy ===
/** An optional value: the model's `null`. */
module Maybe {
  datatype Option<+T> = None | Some(value: T)
}

=== FILE: paths.dfy ===
/**
  The two pure string functions of the pad: which document a location path
  addresses, and where a "go to path" submission navigates.
 */
module Paths {
  import opened Maybe
  import opened Text

  /** Key used when the location path names no document. */
  const DefaultKey: string := "index"

  /**
    The document key of a location path: the path with its first character
    removed (`pathname.slice(1)`), or `DefaultKey` when that leaves nothing.
    The first character is dropped whatever it is; a browser always supplies
    a leading `/`.
   */
  function ResolveKey(pathname: string): (key: string)
    ensures |key| > 0
    ensures |pathname| >= 2 ==> pathname == [pathname[0]] + key
    ensures |pathname| <= 1 ==> key == DefaultKey
  {
    var rest := if |pathname| == 0 then "" else pathname[1..];
    if rest == "" then DefaultKey else rest
  }

  /** The location path that shows the document `key` (`/{path}`). */
  function KeyPath(key: string): (p: string)
    ensures |p| == |key| + 1 && p[0] == '/' && p[1..] == key
  {
    "/" + key
  }

  /** Every non-empty key is recovered from its own location path. */
  lemma ResolveKeyPath(key: string)
    requires key != ""
    ensures ResolveKey(KeyPath(key)) == key
  {
    assert KeyPath(key)[1..] == key;
  }

  /**
    Conversely a slash-led location path is the path of its key, except the
    bare root `/`, which is sent to the default document.
   */
  lemma KeyPathOfResolved(pathname: string)
    requires |pathname| > 0 && pathname[0] == '/'
    ensures pathname == "/" ==> KeyPath(ResolveKey(pathname)) == "/index"
    ensures pathname != "/" ==> KeyPath(ResolveKey(pathname)) == pathname
  {
  }

  /** The root and `/index` address one and the same document. */
  lemma RootIsIndex()
    ensures ResolveKey("/") == ResolveKey("/index") == DefaultKey
    ensures ResolveKey("") == DefaultKey
  {
    assert "/index"[1..] == "index";
  }

  /** Two slash-led paths of length two or more share a key only when equal. */
  lemma ResolveKeyInjective(p: string, q: string)
    requires |p| >= 2 && |q| >= 2 && p[0] == q[0]
    requires ResolveKey(p) == ResolveKey(q)
    ensures p == q
  {
  }

  /**
    The target of a "go to path" submission: the input trimmed and prefixed
    with `/`, or `None` (no navigation) when the trimmed input is empty.
   */
  function NavigationTarget(input: string): (target: Option<string>)
    ensures target.None? <==> AllWs(input)
    ensures target.Some? ==> |target.value| >= 2 && target.value[0] == '/'
    ensures target.Some? ==> Tight(target.value[1..])
  {
    TrimEmptyIff(input);
    var trimmed := Trim(input);
    if trimmed == "" then None else Some(KeyPath(trimmed))
  }

  /** Navigating lands on the document whose key is the trimmed input. */
  lemma NavigationLandsOnTrimmedKey(input: string)
    requires NavigationTarget(input).Some?
    ensures ResolveKey(NavigationTarget(input).value) == Trim(input)
  {
    ResolveKeyPath(Trim(input));
  }

  /** Re-submitting the key of a navigation target navigates to the same place. */
  lemma NavigationTargetStable(input: string)
    requires NavigationTarget(input).Some?
    ensures NavigationTarget(NavigationTarget(input).value[1..]) == NavigationTarget(input)
  {
    var t := NavigationTarget(input).value;
    assert t[1..] == Trim(input);
    TrimIdempotent(input);
  }
}

=== FILE: props.dfy ===
/**
  Properties of the document session over single steps and event traces:
  the reachable-state invariant, loading, debounce coalescing, what a write
  sends and where it lands, the status flags, and navigation teardown.
 */
module SessionProps {
  import opened Maybe
  import opened Text
  import opened Paths
  import opened DocStore
  import opened Session

  /** A freshly mounted page satisfies the invariant. */
  lemma MountInv(store: Store, now: nat, pathname: string)
    ensures Inv(Mount(store, now, pathname))
  {
  }

  /** Every step keeps the invariant. */
  lemma StepInv(s: State, e: Event)
    requires Inv(s)
    ensures Inv(Step(s, e))
  {
    match e
    case Loaded(ok) =>
    case Edit(text) =>
    case Elapse(d) =>
    case Settle(i, ok) =>
      if i < |s.inflight| {
        SettleKeepsRequests(s, i, ok);
      }
    case Navigate(input) =>
  }

  /** Settling one write leaves the others, and their keys and stamps, as they were. */
  lemma SettleKeepsRequests(s: State, i: nat, ok: bool)
    requires Inv(s) && i < |s.inflight|
    ensures var r := Step(s, Settle(i, ok));
      forall j :: 0 <= j < |r.inflight| ==> r.inflight[j] in s.inflight
  {
    var r := Step(s, Settle(i, ok));
    forall j | 0 <= j < |r.inflight| ensures r.inflight[j] in s.inflight {
      if j < i {
        assert r.inflight[j] == s.inflight[j];
      } else {
        assert r.inflight[j] == s.inflight[j + 1];
      }
    }
  }

  /** Every reachable state satisfies the invariant. */
  lemma {:induction false} RunInv(s: State, events: seq<Event>)
    requires Inv(s)
    ensures Inv(Run(s, events))
    decreases |events|
  {
    if events != [] {
      StepInv(s, events[0]);
      RunInv(Step(s, events[0]), events[1..]);
    }
  }

  /** Running two traces back to back is running their concatenation. */
  lemma {:induction false} RunAppend(s: State, a: seq<Event>, b: seq<Event>)
    ensures Run(s, a + b) == Run(Run(s, a), b)
    decreases |a|
  {
    if a == [] {
      assert a + b == b;
    } else {
      assert (a + b)[0] == a[0];
      assert (a + b)[1..] == a[1..] + b;
      RunAppend(Step(s, a[0]), a[1..], b);
    }
  }

  /** Short traces are the steps in order. */
  lemma RunTwo(s: State, a: Event, b: Event)
    ensures Run(s, [a, b]) == Step(Step(s, a), b)
  {
    assert [a, b][1..] == [b];
    assert Run(Step(s, a), [b]) == Run(Step(Step(s, a), b), []);
  }

  lemma RunThree(s: State, a: Event, b: Event, c: Event)
    ensures Run(s, [a, b, c]) == Step(Step(Step(s, a), b), c)
  {
    assert [a, b, c][1..] == [b, c];
    RunTwo(Step(s, a), b, c);
  }

  // ---------------------------------------------------------------- loading

  /**
    The initial read settles. A found document supplies `content` and
    `lastSaved`; an absent one or a failed read leaves content empty and no
    save time. Loading ends in every case, and a timer is armed exactly when
    the loaded content is non-empty.
   */
  lemma LoadOutcome(s: State, ok: bool)
    requires Inv(s) && s.isLoading
    ensures var r := Step(s, Loaded(ok));
      && !r.isLoading
      && (ok && s.path in s.store ==>
            r.content == s.store[s.path].content && r.lastSaved == Some(s.store[s.path].savedAt))
      && (!(ok && s.path in s.store) ==>
            r.content == "" && r.lastSaved.None? && !r.isSaving)
      && (r.timer.Some? <==> ok && s.path in s.store && s.store[s.path].content != "")
      && (r.timer.Some? ==> r.isSaving && r.timer.value == Timer(s.now + QuietPeriod, r.content, s.path))
      && r.store == s.store && r.inflight == []
  {
  }

  /** Only the first settlement of the read has any effect. */
  lemma LoadOnce(s: State, ok: bool)
    requires !s.isLoading
    ensures Step(s, Loaded(ok)) == s
  {
  }

  /**
    Loading a non-empty note re-saves it: with no edit, one quiet period
    later the same content is written back under the same key, stamped with
    the firing time. Only the stamp of that one key changes in the store.
   */
  lemma LoadResaves(store: Store, now: nat, pathname: string)
    requires ResolveKey(pathname) in store && store[ResolveKey(pathname)].content != ""
    ensures var k := ResolveKey(pathname);
      var r := Run(Mount(store, now, pathname), [Loaded(true), Elapse(QuietPeriod), Settle(0, true)]);
      && r.store == store[k := Doc(store[k].content, now + QuietPeriod)]
      && r.store[k].content == store[k].content
      && r.content == store[k].content
      && r.lastSaved == Some(now + QuietPeriod)
      && !r.isSaving && r.timer.None? && r.inflight == []
  {
    var k := ResolveKey(pathname);
    var m := Mount(store, now, pathname);
    var s1 := Step(m, Loaded(true));
    assert s1.timer == Some(Timer(now + QuietPeriod, store[k].content, k));
    var s2 := Step(s1, Elapse(QuietPeriod));
    assert s2.inflight == [Request(k, Doc(store[k].content, now + QuietPeriod))];
    RunThree(m, Loaded(true), Elapse(QuietPeriod), Settle(0, true));
  }

  /**
    A loaded page that has not been edited can only write back what the store
    held when the page opened: an armed timer and every request in flight
    carry the note's original content, and every note keeps its content.
   */
  ghost predicate Unedited(s: State, original: Store) {
    && Inv(s) && !s.isLoading
    && s.store.Keys == original.Keys
    && (forall key :: key in original ==> s.store[key].content == original[key].content)
    && (s.timer.Some? ==> s.path in original && s.timer.value.snapshot == original[s.path].content)
    && (forall i :: 0 <= i < |s.inflight| ==>
          s.path in original && s.inflight[i].doc.content == original[s.path].content)
  }

  /** Events other than edits and navigation keep a page unedited. */
  lemma StepUnedited(s: State, original: Store, e: Event)
    requires Unedited(s, original) && !e.Edit? && !e.Navigate?
    ensures Unedited(Step(s, e), original)
  {
    StepInv(s, e);
  }

  /** Lifts `StepUnedited` to traces. */
  lemma {:induction false} RunUnedited(s: State, original: Store, events: seq<Event>)
    requires Unedited(s, original)
    requires forall i :: 0 <= i < |events| ==> !events[i].Edit? && !events[i].Navigate?
    ensures Unedited(Run(s, events), original)
    decreases |events|
  {
    if events != [] {
      StepUnedited(s, original, events[0]);
      assert forall i :: 0 <= i < |events[1..]| ==> !events[1..][i].Edit? && !events[1..][i].Navigate? by {
        forall i | 0 <= i < |events[1..]| ensures !events[1..][i].Edit? && !events[1..][i].Navigate? {
          assert events[1..][i] == events[i + 1];
        }
      }
      RunUnedited(Step(s, events[0]), original, events[1..]);
    }
  }

  /**
    Loading alone never changes a note: after the read settles, whatever its
    outcome, and any later waits, settlements (successful or failed) and
    repeated load settlements, but no edit or navigation, every note in the
    store still has the content it had when the page opened, and no note is
    created or removed.
   */
  lemma LoadKeepsContent(store: Store, now: nat, pathname: string, readOk: bool, events: seq<Event>)
    requires forall i :: 0 <= i < |events| ==> !events[i].Edit? && !events[i].Navigate?
    ensures var r := Run(Step(Mount(store, now, pathname), Loaded(readOk)), events);
      && r.store.Keys == store.Keys
      && (forall key :: key in store ==> r.store[key].content == store[key].content)
  {
    var m := Mount(store, now, pathname);
    MountInv(store, now, pathname);
    StepInv(m, Loaded(readOk));
    assert Unedited(Step(m, Loaded(readOk)), store);
    RunUnedited(Step(m, Loaded(readOk)), store, events);
  }

  // ---------------------------------------------------------------- editing

  /**
    A changed, non-empty edit cancels whatever timer was pending and arms a
    fresh one a full quiet period ahead, capturing the new content; it
    raises `isSaving` and sends nothing.
   */
  lemma EditRearms(s: State, text: string)
    requires Inv(s) && !s.isLoading
    requires text != "" && text != s.content
    ensures var r := Step(s, Edit(text));
      && r.content == text
      && r.timer == Some(Timer(s.now + QuietPeriod, text, s.path))
      && r.isSaving
      && r.inflight == s.inflight && r.store == s.store && r.lastSaved == s.lastSaved
  {
  }

  /**
    Clearing the note arms nothing and touches no flag; the previous run's
    cleanup still cancels a pending timer, so its save is lost.
   */
  lemma EditToEmpty(s: State)
    requires !s.isLoading && s.content != ""
    ensures var r := Step(s, Edit(""));
      && r.content == "" && r.timer.None?
      && r.isSaving == s.isSaving && r.lastSaved == s.lastSaved
      && r.inflight == s.inflight && r.store == s.store
  {
  }

  /** Edits before the load has settled are impossible: there is no textarea yet. */
  lemma EditWhileLoading(s: State, text: string)
    requires s.isLoading
    ensures Step(s, Edit(text)) == s
  {
  }

  // ---------------------------------------------------------------- timer

  /**
    When the timer fires it sends the content present at that moment, under
    the current key, stamped with the firing time; the timer is gone and
    nothing else changes yet.
   */
  lemma FireWritesCurrent(s: State, d: nat)
    requires Inv(s) && s.timer.Some? && s.timer.value.deadline <= s.now + d
    ensures var r := Step(s, Elapse(d));
      && r.inflight == s.inflight + [Request(s.path, Doc(s.content, s.timer.value.deadline))]
      && r.timer.None? && r.content == s.content && r.store == s.store
      && r.isSaving == s.isSaving && r.lastSaved == s.lastSaved
  {
  }

  /** Before its deadline the timer only waits. */
  lemma WaitBeforeDeadline(s: State, d: nat)
    requires s.timer.Some? && s.now + d < s.timer.value.deadline
    ensures Step(s, Elapse(d)) == s.(now := s.now + d)
  {
  }

  /** Every event of the trace is the passing of time. */
  ghost predicate OnlyTime(events: seq<Event>) {
    forall i :: 0 <= i < |events| ==> events[i].Elapse?
  }

  /**
    With no timer armed, time alone changes nothing but the clock: no write
    is sent however long the wait (no change, no save).
   */
  lemma {:induction false} QuietWithoutTimer(s: State, events: seq<Event>)
    requires s.timer.None? && OnlyTime(events)
    ensures Run(s, events) == s.(now := Run(s, events).now)
    decreases |events|
  {
    if events != [] {
      var s1 := Step(s, events[0]);
      assert s1 == s.(now := s1.now);
      assert OnlyTime(events[1..]) by {
        forall i | 0 <= i < |events[1..]| ensures events[1..][i].Elapse? {
          assert events[1..][i] == events[i + 1];
        }
      }
      QuietWithoutTimer(s1, events[1..]);
    }
  }

  /**
    The stuck indicator: changing the text to something non-empty and then
    clearing it before the timer fires leaves `isSaving` raised with no
    timer armed, and no amount of waiting sends a write or lowers the flag.
   */
  lemma StuckSavingIndicator(s: State, text: string, waits: seq<Event>)
    requires Inv(s) && !s.isLoading
    requires text != "" && text != s.content && OnlyTime(waits)
    ensures var r := Run(s, [Edit(text), Edit("")] + waits);
      r.isSaving && r.timer.None? && r.content == "" && r.inflight == s.inflight && r.store == s.store
  {
    var s2 := Run(s, [Edit(text), Edit("")]);
    RunTwo(s, Edit(text), Edit(""));
    assert s2.isSaving && s2.timer.None? && s2.content == "" && s2.inflight == s.inflight;
    RunAppend(s, [Edit(text), Edit("")], waits);
    QuietWithoutTimer(s2, waits);
  }

  // ---------------------------------------------------------------- settling

  /**
    A write settles: `isSaving` drops whatever the outcome; on success the
    request's document lands in the store and `lastSaved` becomes now; on
    failure the store and `lastSaved` stay and no retry is armed.
   */
  lemma SettleOutcome(s: State, i: nat, ok: bool)
    requires i < |s.inflight|
    ensures var req := s.inflight[i]; var r := Step(s, Settle(i, ok));
      && !r.isSaving
      && (ok ==> r.store == s.store[req.key := req.doc] && r.lastSaved == Some(s.now))
      && (!ok ==> r.store == s.store && r.lastSaved == s.lastSaved)
      && r.timer == s.timer && r.content == s.content
      && multiset(r.inflight) + multiset{req} == multiset(s.inflight)
  {
    var r := Step(s, Settle(i, ok));
    assert s.inflight == s.inflight[..i] + [s.inflight[i]] + s.inflight[i + 1..];
  }

  /** The store agrees with `before` everywhere except possibly under `key`. */
  ghost predicate SameExcept(before: Store, after: Store, key: string) {
    forall k :: k != key ==> (k in after <==> k in before) && (k in after ==> after[k] == before[k])
  }

  /** A step of a reachable session touches the store under the current key only. */
  lemma StepTouchesOnlyPath(s: State, e: Event)
    requires Inv(s)
    ensures SameExcept(s.store, Step(s, e).store, s.path)
  {
  }

  /**
    A session that is not navigated away writes only its own note: every
    other key keeps its document, whatever edits, waits and settlements occur.
   */
  lemma {:induction false} RunTouchesOnlyPath(s: State, events: seq<Event>)
    requires Inv(s)
    requires forall i :: 0 <= i < |events| ==> !events[i].Navigate?
    ensures SameExcept(s.store, Run(s, events).store, s.path)
    decreases |events|
  {
    if events != [] {
      var s1 := Step(s, events[0]);
      StepInv(s, events[0]);
      StepTouchesOnlyPath(s, events[0]);
      assert forall i :: 0 <= i < |events[1..]| ==> !events[1..][i].Navigate? by {
        forall i | 0 <= i < |events[1..]| ensures !events[1..][i].Navigate? {
          assert events[1..][i] == events[i + 1];
        }
      }
      RunTouchesOnlyPath(s1, events[1..]);
    }
  }

  // ---------------------------------------------------------------- navigation

  /**
    An accepted navigation tears the session down: the new page is mounted
    on the trimmed input's key, loading, with no timer and nothing in flight,
    so the save the old page had pending never happens. A rejected one
    changes nothing.
   */
  lemma NavigateTearsDown(s: State, input: string)
    ensures AllWs(input) ==> Step(s, Navigate(input)) == s
    ensures !AllWs(input) ==>
      var r := Step(s, Navigate(input));
      && r == Mount(s.store, s.now, NavigationTarget(input).value)
      && r.path == Trim(input)
      && r.isLoading && r.timer.None? && r.inflight == [] && r.store == s.store
  {
    if !AllWs(input) {
      NavigationLandsOnTrimmedKey(input);
    }
  }
}

=== FILE: scenarios.dfy ===
/**
  Concrete traces: the three-keystroke debounce example, and two behaviours
  of the page that follow from writes settling independently of the timer.
 */
module Scenarios {
  import opened Maybe
  import opened Text
  import opened Paths
  import opened DocStore
  import opened Session
  import opened SessionProps
  import opened Debounce

  /** A page opened at `/notes` on a store without that note, after its read settled. */
  function FreshNotes(store: Store, readOk: bool): (s: State)
    requires "notes" !in store
    ensures Inv(s) && !s.isLoading && s.path == "notes" && s.content == "" && s.timer.None?
    ensures s.now == 0 && s.store == store && s.inflight == [] && !s.isSaving
  {
    Step(Mount(store, 0, "/notes"), Loaded(readOk))
  }

  /**
    Edits "a", "ab", "abc" at 0, 200 and 400 ms, then a quiet second: exactly
    one write is sent, at 1400 ms, carrying "abc"; when it succeeds the store
    holds "abc" under the note's key.
   */
  lemma ThreeKeystrokes(store: Store, readOk: bool)
    requires "notes" !in store
    ensures var s := FreshNotes(store, readOk);
      var typed := Run(s, Typing(["a", "ab", "abc"], [0, 200, 200]) + [Elapse(1000)]);
      && typed.inflight == [Request("notes", Doc("abc", 1400))]
      && Run(typed, [Settle(0, true)]).store == store["notes" := Doc("abc", 1400)]
  {
    var s := FreshNotes(store, readOk);
    var texts: seq<string> := ["a", "ab", "abc"];
    var gaps: seq<nat> := [0, 200, 200];
    assert Burst(s, texts, gaps) by {
      assert texts[1] != texts[0] && texts[2] != texts[1];
    }
    Coalesce(s, texts, gaps);
    assert Sum(gaps) == 400 by {
      assert gaps[1..] == [200, 200] && gaps[1..][1..] == [200];
    }
    var typed := Run(s, Typing(texts, gaps) + [Elapse(1000)]);
    assert Run(typed, [Settle(0, true)]) == Step(typed, Settle(0, true));
  }

  /**
    Two saves in flight can settle out of order, and the store keeps the one
    settling last, which may be the older content: here the page shows "ab"
    while the store holds "a".
   */
  lemma StaleWriteCanWin(store: Store, readOk: bool)
    requires "notes" !in store
    ensures var r := Run(FreshNotes(store, readOk),
        [Edit("a"), Elapse(1000), Edit("ab"), Elapse(1000), Settle(1, true), Settle(0, true)]);
      && r.content == "ab"
      && r.store["notes"] == Doc("a", 1000)
  {
    var s := FreshNotes(store, readOk);
    var s1 := Run(s, [Edit("a"), Elapse(1000)]);
    RunTwo(s, Edit("a"), Elapse(1000));
    assert s1.inflight == [Request("notes", Doc("a", 1000))];
    var s2 := Run(s1, [Edit("ab"), Elapse(1000)]);
    RunTwo(s1, Edit("ab"), Elapse(1000));
    assert s2.inflight == [Request("notes", Doc("a", 1000)), Request("notes", Doc("ab", 2000))];
    RunTwo(s2, Settle(1, true), Settle(0, true));
    RunAppend(s, [Edit("a"), Elapse(1000)], [Edit("ab"), Elapse(1000)]);
    RunAppend(s, [Edit("a"), Elapse(1000)] + [Edit("ab"), Elapse(1000)], [Settle(1, true), Settle(0, true)]);
    assert [Edit("a"), Elapse(1000)] + [Edit("ab"), Elapse(1000)] + [Settle(1, true), Settle(0, true)]
        == [Edit("a"), Elapse(1000), Edit("ab"), Elapse(1000), Settle(1, true), Settle(0, true)];
  }

  /**
    One flag for two states: when an earlier write settles after a new edit
    has armed the timer, `isSaving` drops although a save is still pending.
   */
  lemma SavingFlagDropsWhilePending(store: Store, readOk: bool, writeOk: bool)
    requires "notes" !in store
    ensures var r := Run(FreshNotes(store, readOk), [Edit("a"), Elapse(1000), Edit("ab"), Settle(0, writeOk)]);
      && !r.isSaving
      && r.timer == Some(Timer(2000, "ab", "notes"))
  {
    var s := FreshNotes(store, readOk);
    RunTwo(s, Edit("a"), Elapse(1000));
    var s1 := Run(s, [Edit("a"), Elapse(1000)]);
    RunTwo(s1, Edit("ab"), Settle(0, writeOk));
    RunAppend(s, [Edit("a"), Elapse(1000)], [Edit("ab"), Settle(0, writeOk)]);
    assert [Edit("a"), Elapse(1000)] + [Edit("ab"), Settle(0, writeOk)]
        == [Edit("a"), Elapse(1000), Edit("ab"), Settle(0, writeOk)];
  }

  /**
    Saved notes come back: after a successful save, reloading the page at
    the same path shows the saved content and its save time.
   */
  lemma ReloadShowsSaved(s: State, i: nat)
    requires Inv(s) && i < |s.inflight|
    requires s.path != "" && Tight(s.path)
    ensures var saved := Step(s, Settle(i, true));
      var reloaded := Run(saved, [Navigate(s.path), Loaded(true)]);
      && reloaded.content == s.inflight[i].doc.content
      && reloaded.lastSaved == Some(s.inflight[i].doc.savedAt)
      && reloaded.path == s.path
  {
    var saved := Step(s, Settle(i, true));
    RunTwo(saved, Navigate(s.path), Loaded(true));
    var p := s.path;
    assert p[..0] == [] && p[|p|..] == [] && p[0..|p|] == p;
    TrimUnique(p, 0, |p|);
    assert Trim(p) == p;
    TrimEmptyIff(p);
    assert !AllWs(p);
    assert NavigationTarget(p) == Some("/" + p);
    NavigateTearsDown(saved, p);
    var reopened := Step(saved, Navigate(p));
    assert reopened == Mount(saved.store, saved.now, "/" + p);
    assert reopened.path == p && reopened.isLoading;
    assert p in saved.store && saved.store[p] == s.inflight[i].doc;
  }
}

=== FILE: session.dfy ===
/**
  The pad's document session: load the note addressed by the location path,
  take edits, and save them one quiet period after the last edit.

  React's state variables become fields of an immutable `State`; each
  re-render that re-runs the autosave effect becomes an explicit step. Time
  is a logical clock in milliseconds, and the one `setTimeout` the session
  may have armed is kept as a `Timer` holding what its callback captured.
  The backend is part of the state, so that a trace of events shows both
  what the page does and what reaches the store.
 */
module Session {
  import opened Maybe
  import opened Paths
  import opened DocStore

  /** The debounce delay of the autosave timer, in milliseconds. */
  const QuietPeriod: nat := 1000

  /** An armed autosave timer: when it fires, and the `content` and `path` its callback captured. */
  datatype Timer = Timer(deadline: nat, snapshot: string, key: string)

  /** A `setDoc` call that has been issued and has not settled yet. */
  datatype Request = Request(key: string, doc: Doc)

  datatype State = State(
    store: Store,             // the backend, shared by all keys
    now: nat,                 // logical clock
    path: string,             // `path`
    content: string,          // `content`
    lastSaved: Option<nat>,   // `lastSaved`, a logical time
    isSaving: bool,           // `isSaving`
    isLoading: bool,          // `isLoading`
    timer: Option<Timer>,     // the pending `saveTimeout`, if any
    inflight: seq<Request>    // issued writes, in issue order
  )

  datatype Event =
    | Loaded(ok: bool)              // the initial `getDoc` settles, successfully or not
    | Edit(text: string)            // the textarea reports a new value
    | Elapse(d: nat)                // `d` milliseconds pass
    | Settle(index: nat, ok: bool)  // the `index`-th in-flight `setDoc` settles
    | Navigate(input: string)       // the "go to path" form is submitted

  /**
    A fresh page at location `pathname`: the key is resolved, everything else
    has its initial value, and the load is pending. The autosave effect also
    runs on mount (and again when `path` is set), but with empty content it
    does nothing.
   */
  function Mount(store: Store, now: nat, pathname: string): (s: State)
    ensures s.isLoading && s.content == "" && s.timer.None? && s.inflight == []
    ensures s.path == ResolveKey(pathname) && s.store == store && s.now == now
  {
    State(store, now, ResolveKey(pathname), "", None, false, true, None, [])
  }

  /**
    `setContent(text)` and the autosave effect it triggers. React skips the
    effect when the value is unchanged. Otherwise the previous run's cleanup
    clears any pending timer; then, unless the new content is empty, the
    effect raises `isSaving` and arms a timer capturing the new content.
   */
  function SetContent(s: State, text: string): (r: State)
    ensures r.content == text
    ensures r.store == s.store && r.inflight == s.inflight && r.now == s.now
    ensures r.path == s.path && r.lastSaved == s.lastSaved && r.isLoading == s.isLoading
    ensures text == s.content ==> r == s
    ensures text != s.content ==> (r.timer.Some? <==> text != "")
    ensures text != s.content && text != "" ==> r.isSaving && r.timer == Some(Timer(s.now + QuietPeriod, text, s.path))
    ensures text != s.content && text == "" ==> r.isSaving == s.isSaving
  {
    if text == s.content then s
    else
      var cleared := s.(content := text, timer := None);
      if text == "" then cleared
      else cleared.(isSaving := true, timer := Some(Timer(s.now + QuietPeriod, text, s.path)))
  }

  /**
    `loadContent` settles: a found document supplies the content and
    `lastSaved`; an absent document or a failed read leaves both untouched.
    Either way loading ends. Only the first settlement counts.
   */
  function OnLoaded(s: State, ok: bool): (r: State)
    ensures !r.isLoading
    ensures r.store == s.store && r.path == s.path && r.inflight == s.inflight
  {
    if !s.isLoading then s
    else
      match Read(s.store, s.path, ok)
      case Found(doc) => SetContent(s.(lastSaved := Some(doc.savedAt), isLoading := false), doc.content)
      case _ => s.(isLoading := false)
  }

  /** The textarea exists only once loading is over. */
  function OnEdit(s: State, text: string): (r: State)
    ensures r.isLoading == s.isLoading && r.store == s.store && r.inflight == s.inflight
  {
    if s.isLoading then s else SetContent(s, text)
  }

  /**
    Time passes. A timer whose deadline falls within the interval fires at
    its deadline and issues a write of the content and key it captured,
    stamped with the firing time. Since only edits and the load arm timers,
    and waiting arms none, at most one fires per interval.
   */
  function OnElapse(s: State, d: nat): (r: State)
    ensures r.now == s.now + d
    ensures |s.inflight| <= |r.inflight| <= |s.inflight| + 1
    ensures r.inflight[..|s.inflight|] == s.inflight
    ensures |r.inflight| == |s.inflight| + 1 <==> s.timer.Some? && s.timer.value.deadline <= s.now + d
  {
    var later := s.(now := s.now + d);
    match s.timer
    case Some(t) =>
      if t.deadline <= s.now + d then
        later.(timer := None, inflight := s.inflight + [Request(t.key, Doc(t.snapshot, t.deadline))])
      else later
    case None => later
  }

  /**
    The `index`-th issued write settles. On success the document lands in
    the store and `lastSaved` becomes the settling time; on failure the
    store is untouched and nothing is retried. Either way `isSaving` drops.
   */
  function OnSettle(s: State, index: nat, ok: bool): (r: State)
    ensures index < |s.inflight| ==> !r.isSaving && r.inflight == s.inflight[..index] + s.inflight[index + 1..]
    ensures index >= |s.inflight| ==> r == s
    ensures r.timer == s.timer && r.content == s.content && r.path == s.path
  {
    if index < |s.inflight| then
      var req := s.inflight[index];
      s.(store := Write(s.store, req.key, req.doc, ok),
         inflight := s.inflight[..index] + s.inflight[index + 1..],
         lastSaved := if ok then Some(s.now) else s.lastSaved,
         isSaving := false)
    else s
  }

  /**
    A navigation submission. A rejected input does nothing; an accepted one
    reloads the page at the target, which discards the whole session:
    content, flags, the pending timer and the requests still in flight.
   */
  function OnNavigate(s: State, input: string): (r: State)
    ensures NavigationTarget(input).None? ==> r == s
    ensures r.store == s.store && r.now == s.now
  {
    match NavigationTarget(input)
    case None => s
    case Some(target) => Mount(s.store, s.now, target)
  }

  function Step(s: State, e: Event): (r: State)
    ensures s.now <= r.now
    ensures s.store.Keys <= r.store.Keys
    ensures !e.Settle? ==> r.store == s.store
    ensures !e.Navigate? ==> r.path == s.path
  {
    match e
    case Loaded(ok) => OnLoaded(s, ok)
    case Edit(text) => OnEdit(s, text)
    case Elapse(d) => OnElapse(s, d)
    case Settle(i, ok) => OnSettle(s, i, ok)
    case Navigate(input) => OnNavigate(s, input)
  }

  /** The state after a whole trace of events. */
  function Run(s: State, events: seq<Event>): (r: State)
    ensures s.now <= r.now
    ensures s.store.Keys <= r.store.Keys
    decreases |events|
  {
    if events == [] then s else Run(Step(s, events[0]), events[1..])
  }

  /**
    What holds of every state a session can reach:
    - while loading nothing has been typed, armed or issued;
    - an armed timer captured exactly the current content and key, that
      content is non-empty, and the deadline lies within one quiet period
      ahead (`isSaving` is NOT implied: a write settling while a timer is
      armed lowers it);
    - every request in flight targets the current key and was stamped no
      later than now.
   */
  ghost predicate Inv(s: State) {
    && (s.isLoading ==> s.content == "" && s.timer.None? && s.inflight == [] && !s.isSaving && s.lastSaved.None?)
    && (s.timer.Some? ==> TimerCurrent(s))
    && (forall i :: 0 <= i < |s.inflight| ==> s.inflight[i].key == s.path && s.inflight[i].doc.savedAt <= s.now)
  }

  ghost predicate TimerCurrent(s: State)
    requires s.timer.Some?
  {
    var t := s.timer.value;
    && t.snapshot == s.content && t.key == s.path && s.content != ""
    && s.now < t.deadline <= s.now + QuietPeriod
  }
}

=== FILE: store.dfy ===
/**
  The document backend, seen only through "read document by key" and
  "write document by key". Every call may fail (the network or the backend
  is unavailable); the caller passes the outcome in as `ok`.
 */
module DocStore {

  /** A stored note: its text and the logical time of the write that stored it. */
  datatype Doc = Doc(content: string, savedAt: nat)

  type Store = map<string, Doc>

  datatype ReadResult = Found(doc: Doc) | Absent | Unavailable

  /** `getDoc`: the document under `key`, its absence, or a failure. */
  function Read(store: Store, key: string, ok: bool): (r: ReadResult)
    ensures r.Unavailable? <==> !ok
    ensures r.Found? <==> ok && key in store
    ensures r.Found? ==> r.doc == store[key]
  {
    if !ok then Unavailable
    else if key in store then Found(store[key])
    else Absent
  }

  /**
    `setDoc`: on success the document under `key` is replaced outright
    (last write wins, no version check); on failure nothing changes.
   */
  function Write(store: Store, key: string, doc: Doc, ok: bool): (store': Store)
    ensures ok ==> key in store' && store'[key] == doc
    ensures !ok ==> store' == store
    ensures store'.Keys == if ok then store.Keys + {key} else store.Keys
    ensures forall k :: k != key && k in store ==> store'[k] == store[k]
  {
    if ok then store[key := doc] else store
  }

  /** Reading a key back after a successful write yields what was written. */
  lemma ReadAfterWrite(store: Store, key: string, doc: Doc)
    ensures Read(Write(store, key, doc, true), key, true) == Found(doc)
  {
  }

  /** A write, successful or not, leaves every other key's reads unchanged. */
  lemma ReadOtherAfterWrite(store: Store, key: string, other: string, doc: Doc, ok: bool, readOk: bool)
    requires other != key
    ensures Read(Write(store, key, doc, ok), other, readOk) == Read(store, other, readOk)
  {
  }

  /** Of two successful writes to one key, the later one wins. */
  lemma LastWriteWins(store: Store, key: string, first: Doc, second: Doc)
    ensures Write(Write(store, key, first, true), key, second, true) == Write(store, key, second, true)
  {
  }
}

=== FILE: text.dfy ===
/**
  Whitespace and trimming, as used when the user types a path to navigate to.
  `Trim` removes the same characters as ECMAScript's `String.prototype.trim`:
  the WhiteSpace and LineTerminator code points (the space separators being
  those of Unicode general category Zs).
 */
module Text {

  /** The space separators of Unicode general category Zs. */
  const SpaceSeparators: set<char> := {
    ' ', '\U{00A0}', '\U{1680}',
    '\U{2000}', '\U{2001}', '\U{2002}', '\U{2003}', '\U{2004}', '\U{2005}',
    '\U{2006}', '\U{2007}', '\U{2008}', '\U{2009}', '\U{200A}',
    '\U{202F}', '\U{205F}', '\U{3000}'
  }

  /** ECMAScript's WhiteSpace production: TAB, VT, FF, ZWNBSP and the space separators. */
  const WhiteSpace: set<char> := {'\t', '\U{000B}', '\U{000C}', '\U{FEFF}'} + SpaceSeparators

  /** ECMAScript's LineTerminator production: LF, CR, LS and PS. */
  const LineTerminator: set<char> := {'\n', '\r', '\U{2028}', '\U{2029}'}

  /** A character `trim` strips, tested by code point ranges. */
  predicate IsWs(c: char) {
    || c == '\t' || c == '\n' || c == '\U{000B}' || c == '\U{000C}' || c == '\r'
    || c == ' ' || c == '\U{00A0}' || c == '\U{1680}'
    || ('\U{2000}' <= c <= '\U{200A}')
    || c == '\U{2028}' || c == '\U{2029}' || c == '\U{202F}' || c == '\U{205F}'
    || c == '\U{3000}' || c == '\U{FEFF}'
  }

  /** The characters `IsWs` accepts are exactly ECMAScript's WhiteSpace and LineTerminator. */
  lemma WsProductions()
    ensures forall c :: IsWs(c) <==> c in WhiteSpace || c in LineTerminator
  {
  }

  ghost predicate AllWs(s: string) {
    forall i :: 0 <= i < |s| ==> IsWs(s[i])
  }

  /** True when `t` has no whitespace at either end. */
  ghost predicate Tight(t: string) {
    t == [] || (!IsWs(t[0]) && !IsWs(t[|t| - 1]))
  }

  /** Drops leading whitespace. */
  function TrimStart(s: string): (r: string)
    ensures |r| <= |s| && r == s[|s| - |r|..]
    ensures AllWs(s[..|s| - |r|])
    ensures r == [] || !IsWs(r[0])
    decreases |s|
  {
    if |s| > 0 && IsWs(s[0]) then
      var r := TrimStart(s[1..]);
      assert s[..|s| - |r|] == [s[0]] + s[1..][..|s| - 1 - |r|];
      r
    else
      s
  }

  /** Drops trailing whitespace. */
  function TrimEnd(s: string): (r: string)
    ensures |r| <= |s| && r == s[..|r|]
    ensures AllWs(s[|r|..])
    ensures r == [] || !IsWs(r[|r| - 1])
    decreases |s|
  {
    if |s| > 0 && IsWs(s[|s| - 1]) then
      var r := TrimEnd(s[..|s| - 1]);
      assert s[|r|..] == s[..|s| - 1][|r|..] + [s[|s| - 1]];
      r
    else
      s
  }

  /** Drops whitespace at both ends (JavaScript `trim`). */
  function Trim(s: string): (r: string)
    ensures |r| <= |s|
    ensures Tight(r)
  {
    TrimEnd(TrimStart(s))
  }

  /**
    `Trim(s)` is the infix of `s` left after removing an all-whitespace
    prefix and an all-whitespace suffix.
   */
  lemma TrimIsInfix(s: string) returns (i: nat, j: nat)
    ensures i <= j <= |s|
    ensures Trim(s) == s[i..j]
    ensures AllWs(s[..i]) && AllWs(s[j..])
  {
    var a := TrimStart(s);
    var t := TrimEnd(a);
    assert Trim(s) == t;
    i := |s| - |a|;
    j := i + |t|;
    assert a == s[i..];
    assert t == a[..|t|] == s[i..j];
    assert a[|t|..] == s[j..];
  }

  /** Stripping leading whitespace stops at the first non-whitespace character. */
  lemma {:induction false} TrimStartAt(s: string, i: nat)
    requires i <= |s| && AllWs(s[..i])
    requires i == |s| || !IsWs(s[i])
    ensures TrimStart(s) == s[i..]
    decreases i
  {
    if i > 0 {
      assert s[..i][0] == s[0];
      assert s[1..][..i - 1] == s[..i][1..];
      TrimStartAt(s[1..], i - 1);
      assert s[1..][i - 1..] == s[i..];
    }
  }

  /** Stripping trailing whitespace stops at the last non-whitespace character. */
  lemma {:induction false} TrimEndAt(s: string, j: nat)
    requires j <= |s| && AllWs(s[j..])
    requires j == 0 || !IsWs(s[j - 1])
    ensures TrimEnd(s) == s[..j]
    decreases |s| - j
  {
    if j < |s| {
      var n := |s| - 1;
      assert s[j..][n - j] == s[n];
      assert s[..n][j..] == s[j..][..n - j];
      TrimEndAt(s[..n], j);
      assert s[..n][..j] == s[..j];
    }
  }

  /**
    Conversely, any way of cutting `s` into whitespace, a tight middle and
    whitespace yields `Trim(s)` as the middle: the trim is unique.
   */
  lemma TrimUnique(s: string, i: nat, j: nat)
    requires i <= j <= |s|
    requires AllWs(s[..i]) && AllWs(s[j..])
    requires Tight(s[i..j])
    ensures Trim(s) == s[i..j]
  {
    if i == j {
      AllWsSplit(s, i, j);
      TrimAllWs(s);
    } else {
      TrimTightMiddle(s, i, j);
    }
  }

  /** A string of whitespace only trims to nothing. */
  lemma TrimAllWs(s: string)
    requires AllWs(s)
    ensures Trim(s) == []
  {
    assert s[..|s|] == s;
    TrimStartAt(s, |s|);
    assert TrimStart(s) == [];
  }

  /** A non-empty tight middle is what the trim keeps. */
  lemma TrimTightMiddle(s: string, i: nat, j: nat)
    requires i < j <= |s|
    requires AllWs(s[..i]) && AllWs(s[j..])
    requires !IsWs(s[i]) && !IsWs(s[j - 1])
    ensures Trim(s) == s[i..j]
  {
    TrimStartAt(s, i);
    var a := s[i..];
    assert a[j - i..] == s[j..];
    assert a[j - i - 1] == s[j - 1];
    TrimEndAt(a, j - i);
    assert a[..j - i] == s[i..j];
  }

  /** Whitespace before `i` and from `j` on, with nothing between, is whitespace throughout. */
  lemma AllWsSplit(s: string, i: nat, j: nat)
    requires i == j <= |s|
    requires AllWs(s[..i]) && AllWs(s[j..])
    ensures AllWs(s)
  {
    forall p | 0 <= p < |s| ensures IsWs(s[p]) {
      if p < i { assert s[..i][p] == s[p]; }
      else { assert s[j..][p - j] == s[p]; }
    }
  }

  /** The trim is empty exactly when the input is whitespace only. */
  lemma TrimEmptyIff(s: string)
    ensures Trim(s) == [] <==> AllWs(s)
  {
    if AllWs(s) {
      assert s[..0] == [] && s[|s|..] == [] && s[0..0] == [];
      TrimUnique(s, 0, 0);
    }
    if Trim(s) == [] {
      var i, j := TrimIsInfix(s);
      AllWsSplit(s, i, j);
    }
  }

  /** Trimming twice is trimming once. */
  lemma TrimIdempotent(s: string)
    ensures Trim(Trim(s)) == Trim(s)
  {
    var t := Trim(s);
    assert t[..0] == [] && t[|t|..] == [] && t[0..|t|] == t;
    TrimUnique(t, 0, |t|);
  }
}
